=== FILE: README.md ===
# OpenStretch player — a Dafny model

OpenStretch is a single-page stretching timer. The user picks a section of
exercises from a built-in catalog. The player then counts each exercise down,
with a progress bar. When an exercise ends, it waits a moment and then moves
on to the next one automatically. The user can start and stop, step between
exercises, and lengthen or shorten the current exercise in 5-second steps.

This project models the player's logic in `script.js` as pure functions and
proves properties about it:

- `timing.dfy` (module `Timing`): JavaScript's `Math.round`, the countdown
  rule each interval tick applies, and the progress-bar percentage.
- `clock.dfy` (module `Clock`): `formatSeconds`, which prints seconds as
  `M:SS`. It is modelled together with the decimal digits it prints, and an
  inverse reader `ClockValue` is used to state the round trip.
- `markup.dfy` (module `Markup`): the escape step of the fallback-image
  generator. It replaces `&`, `<` and `>` with their entities in three
  whole-string passes. Two things are proved against it: an independent
  one-pass reference definition, and an `Unescape` inverse.
- `catalog.dfy` (module `Catalog`): the `SECTIONS` catalog, entry for entry.
- `playback.dfy` (module `Playback`): the session state machine.
  - The state is the session's own copy of the section, the current index,
    the playing flag, the remaining seconds, the bar width, the running
    interval with the two values it captured, the number of settle callbacks
    not yet fired, and whether the end-of-session banner is showing.
  - Every button and every timer callback is an `Event`, handled by `Step`.
    `Run` applies a sequence of events.
  - Both keep the invariant `Valid`: a runnable section, an index inside it,
    a non-negative countdown, and an interval exactly while playing.
- `playback_proofs.dfy` (module `PlaybackProofs`): properties that span
  several events.
  - pause/resume;
  - at most one completion per countdown;
  - auto-advance and the end of the session;
  - navigation round trips;
  - duration edits and their interaction with a running interval;
  - settle callbacks that outlive navigation.

The clock and the callbacks are modelled as events. `IntervalFired(elapsed)`
carries the wall-clock seconds since the interval started, multiplied by the
playback speed in effect at that tick. `SettleFired` runs one settle callback scheduled 450 ms after
a countdown reached zero. These callbacks are never cancelled, so the model
keeps a count of them instead of a flag.

The model keeps two behaviours of the source exactly as written:

- A settle callback scheduled before the user chose another section, or
  pressed next, still advances the player afterwards
  (`SettleSurvivesSectionChange`, `SettleSurvivesNext`).
- A duration edit while the interval runs lasts on the clock only until the
  next tick. The tick counts down from the value captured when the interval
  started (`AdjustOverriddenByTick`). After a pause and resume, the countdown
  can then exceed the edited duration, and the tick computes a negative bar
  width, which the browser rejects (`ProgressCanGoNegative`).

## Model

| member | source | states |
|---|---|---|
| Timing.Round | script.js:229 | `Math.round` returns the integer within half a unit of its argument, and it is the only such integer (`RoundUnique`) |
| Timing.RemainingAfter | script.js:229 | the countdown is never negative; it is zero exactly when less than half a second is left; while time is left, it is within half a second of the exact difference; for a non-negative starting count and a non-negative elapsed time it never exceeds the starting count |
| Timing.RemainingAtStart | script.js:223-229 | with no time elapsed, the tick shows the count the interval started from |
| Timing.RemainingAfterMonotone | script.js:229 | a larger speed-scaled elapsed time never shows more time remaining |
| Timing.SpeedChangeRaisesCount | script.js:228-229 | because each tick scales the whole wall time by the current speed, lowering the speed mid-countdown makes a later tick show more time (10 then 25 of 30 seconds) |
| Timing.Progress | script.js:232 | a zero-length exercise shows a full bar; the bar is full when nothing remains and empty when everything remains, and between 0 and 100 percent while the remaining count lies between zero and the total |
| Timing.ProgressLinear | script.js:232 | for a positive total the bar grows at a constant rate: one second less remaining widens it by `100 / total` percent, which with the empty bar at `remaining == total` fixes it to `(total - remaining) / total * 100` |
| Timing.ProgressAntitone | script.js:232 | less time remaining never draws a shorter bar |
| Clock.FormatSeconds | script.js:305-310 | the printed text is a well-formed `M:SS` string worth exactly the rounded seconds, clamped at zero, as read by the separate reader `ClockValue` |
| Clock.Decimal | script.js:309 | the decimal text of a number is a non-empty string of digits; `DecimalShape` and `DigitsValueOfDecimal` add that it has no superfluous leading zero and reads back as the number |
| Clock.PadStart | script.js:309 | `padStart` yields the longer of the text's length and the width; `PadStartSuffix` and `PadStartFill` add that it keeps the text as its tail and puts only fill characters in front |
| Clock.FormatThenRead | script.js:305-310 | the text printed for a whole number of seconds is a well-formed `M:SS` string that reads back as that number |
| Clock.ReadThenFormat | script.js:305-310 | every well-formed `M:SS` string is exactly the text printed for the number of seconds it stands for |
| Clock.FormatSecondsInjective | script.js:305-310 | different whole numbers of seconds print differently |
| Clock.FormatSecondsExamples | script.js:305-310 | 125 prints "2:05", 59 prints "0:59", 0 prints "0:00", and -3 prints "0:00" |
| Clock.DecimalShape | script.js:309 | the decimal text of a number starts with '0' only for zero, and has one digit exactly below ten |
| Clock.DigitsValueOfDecimal | script.js:309 | the decimal text of a number reads back as that number |
| Clock.PadStartSuffix | script.js:309 | left padding keeps the original text as the suffix |
| Clock.PadStartFill | script.js:309 | left padding adds only fill characters in front |
| Markup.ReplaceAllOne | script.js:314 | in a one-character string, the pattern character becomes the replacement text and any other character is kept |
| Markup.ReplaceAll | script.js:314 | a global one-character replace produces only kept characters and replacement characters, and changes nothing when the character is absent |
| Markup.ReplaceAllAppend | script.js:314 | a global replace of a concatenation is the concatenation of the replaces |
| Markup.EscapeText | script.js:314 | the escaped title contains no raw `<` or `>` |
| Markup.EscapeTextIsEscapeEach | script.js:314 | the three whole-string passes equal one pass that escapes each character on its own |
| Markup.UnescapeEscapeText | script.js:314 | the original title can be read back from its escaped form |
| Catalog.CatalogPlayable | script.js:10-84 | every catalog section has at least one exercise, and none is shorter than five seconds |
| Playback.LoadExercise | script.js:183-193 | an existing exercise is shown at its full duration with an empty bar, and the banner is cleared; a missing one changes nothing; the invariant is preserved |
| Playback.StartWorkout | script.js:212-226 | the session plays; when the exercise exists, the interval restarts from the current count over the exercise's duration; otherwise the old interval is kept; the count, bar, banner and pending settle callbacks are untouched; the invariant is preserved |
| Playback.StopWorkout | script.js:260-265 | the session stops with no interval; the count, bar, banner and pending settle callbacks are kept |
| Playback.Tick | script.js:227-240 | a tick recomputes the count from the captured start and the bar from the captured total; at zero it stops the interval and schedules exactly one settle callback; otherwise the interval keeps running; the invariant is preserved |
| Playback.Settle | script.js:242-255 | a pending settle moves to the next exercise and starts it at full length; at the last exercise it shows the completed session with a full bar; with none pending nothing happens |
| Playback.Prev | script.js:267-274 | at the first exercise nothing happens; otherwise the index moves back by one, playback stops, and the exercise is shown at full length with an empty bar and no banner |
| Playback.Next | script.js:276-283 | at the last exercise nothing happens; otherwise the index moves on by one, playback stops, and the exercise is shown at full length with an empty bar and no banner |
| Playback.Adjust | script.js:285-293 | the current duration becomes `max(5, duration + delta)` and the clock shows it; no other exercise changes; a running interval keeps its captured values |
| Playback.LoadSection | script.js:166-181 | the session restarts at the first exercise, stopped, with no interval and no end-of-session banner, on a fresh copy of the catalog entry; settle callbacks still pending are kept |
| Playback.SelectSection | script.js:124-131 | an identifier outside the catalog is ignored; any other loads that section |
| Playback.TogglePlay | script.js:206-210 | without a section nothing happens; otherwise it starts a stopped session and stops a playing one |
| Playback.PrevExercise | script.js:267-274 | without a section nothing happens; otherwise it steps back |
| Playback.NextExercise | script.js:276-283 | without a section nothing happens; otherwise it steps forward |
| Playback.AdjustDuration | script.js:285-293 | without a section nothing happens; otherwise it edits the current exercise |
| Playback.Step | script.js:123-142 | every button and callback keeps the player valid, and only a section button changes the page before a section is chosen |
| Playback.Run | script.js:123-142 | after any sequence of events the player is valid, so the index always lies inside the section |
| PlaybackProofs.ReloadRestoresCatalog | script.js:168 | edits change the session's copy only: loading the section again restores the catalog durations |
| PlaybackProofs.StepFromCatalog | script.js:166-168 | after any single event, the session's section still equals the catalog entry it names in titles, names, variants, colours and images; only durations may differ |
| PlaybackProofs.RunFromCatalog | script.js:285-293 | after any sequence of events, the session works on a copy of its catalog entry that differs from it at most in durations |
| PlaybackProofs.ToggleTwiceWhenStopped | script.js:206-210 | starting and then stopping a stopped session gives the same session back |
| PlaybackProofs.StopIdempotent | script.js:260-265 | stopping twice is the same as stopping once |
| PlaybackProofs.TickBounded | script.js:229 | a tick shows between zero and the starting count |
| PlaybackProofs.TickMonotone | script.js:229 | within one interval, a larger speed-scaled elapsed time never shows more time; at a constant speed, later ticks never show more time |
| PlaybackProofs.TickMemoryless | script.js:222-229 | a tick that did not finish the countdown has no effect on later ticks |
| PlaybackProofs.PauseResume | script.js:221-229 | after a pause, the interval resumes from the count shown at the pause and not from the full duration; every tick within the first half second of speed-scaled time after the resume shows that count |
| PlaybackProofs.TickProgressBounded | script.js:232 | while the interval started from no more than its total, the bar stays between 0 and 100 percent |
| PlaybackProofs.CompletionSignalledOnce | script.js:235-242 | over any sequence of ticks, a countdown schedules one settle callback exactly when some tick reaches zero, and none otherwise; the interval is gone afterwards exactly then |
| PlaybackProofs.FinishThenSettle | script.js:235-255 | the tick that finishes an exercise, followed by its settle callback, starts the next exercise at full length, or shows the session complete at the last one |
| PlaybackProofs.SettleSurvivesSectionChange | script.js:166-171 | a settle callback scheduled before another section was chosen starts that section's second exercise |
| PlaybackProofs.SettleSurvivesNext | script.js:276-283 | a settle callback pending across a press of next moves the player two exercises on |
| PlaybackProofs.NextThenPrev | script.js:267-283 | next then previous returns to the same exercise, stopped and at full length |
| PlaybackProofs.PrevThenNext | script.js:267-283 | previous then next returns to the same exercise, stopped and at full length |
| PlaybackProofs.IncreaseThenDecrease | script.js:285-293 | a press of + followed by a press of − restores the exercise and shows its duration on the clock |
| PlaybackProofs.AdjustOverriddenByTick | script.js:222-229 | during a running interval, the count shown after a duration edit is replaced at the next tick by the countdown from the captured start, while the section keeps the edited duration |
| PlaybackProofs.ProgressCanGoNegative | script.js:222-232 | for a stopped exercise of at least 11 seconds, started at full length, shortened by one press, paused after one second of speed-scaled time and resumed, the count is longer than the exercise and the computed bar width is negative at every tick within the first half second of speed-scaled time after the resume |
| PlaybackProofs.PostureProgressCanGoNegative | script.js:10-16 | the first posture exercise exhibits it: with the first resumed tick 200 ms in, 29 seconds are shown and the computed bar width is negative |

## Left out

- Everything the page shows is left out. This covers text contents, button labels and their `disabled` and `aria` attributes, image `src`, `alt` and `hidden`, the meta line, the menu toggle and the year stamp. The model keeps only the values these are drawn from.
- The image's `hidden` flag is left out. The completed-session view sets it, and nothing in `script.js` clears it again.
- `alert`, `console.warn`, `navigator.vibrate` and the `location.hash` jump are left out. They are side effects with no logic.
- The SVG shape templates and `encodeURIComponent` of `makeExerciseSVG` are left out. Only its escape step is modelled.
- `String(title || "")` is modelled for string titles only.
- `setInterval`, `setTimeout` and `Date.now` become the `IntervalFired` and `SettleFired` events. Their 200 ms and 450 ms delays are not modelled.
- The playback-speed menu and its `parseFloat` are left out. `IntervalFired` carries elapsed time that is already scaled by the speed. Each tick scales the whole wall time since the interval started by the speed in effect at that tick, so a speed change during a countdown can make the count jump up or down. The model allows this because `IntervalFired`'s elapsed time is unconstrained (`SpeedChangeRaisesCount`).
- A negative progress width is kept as computed. In the browser such a width is invalid, so the assignment is ignored and the bar keeps its previous width; the model does not reproduce that.
- Floating point is modelled as exact `real` arithmetic. Countdown values stay integral because they come from `Math.round`.
- `baseRemaining` is left out. It is written but never read.
- The section buttons' identifiers come from the page. An identifier that names an inherited property of a JavaScript object, rather than a catalog entry, is not modelled.
- Playback.AdjustDuration: it requires the current index to lie inside the section. The source would throw on an out-of-range index, and `Valid`, which every reachable player keeps, rules that index out.

=== FILE: catalog.dfy ===
/** The built-in catalog of stretching sections the player offers, keyed by
    the identifier each section button carries. */
module Catalog {

  datatype Exercise = Exercise(name: string, duration: int, variant: string, color: string, img: string)

  datatype Section = Section(title: string, desc: string, exercises: seq<Exercise>)

  /** No exercise is ever shorter than this many seconds. */
  const MinDuration := 5

  /** A section the player can run: at least one exercise, none shorter than
      the minimum duration. */
  predicate Playable(sec: Section)
  {
    && |sec.exercises| > 0
    && forall i :: 0 <= i < |sec.exercises| ==> sec.exercises[i].duration >= MinDuration
  }

  const Sections: map<string, Section> := map[
    "posture" := Section(
      "Posture Power Session",
      "A series of squats and lunge holds designed to strengthen posture muscles.",
      [ Exercise("Squat Hold", 30, "squat", "#ff6b6b", "https://picsum.photos/id/1015/1200/800.jpg"),
        Exercise("Split Lunge Hold", 60, "lunge", "#ff914d", "https://picsum.photos/id/1027/1200/800.jpg"),
        Exercise("Side Lunge Hold", 60, "sidelunge", "#ffd24d", "https://picsum.photos/id/1035/1200/800.jpg"),
        Exercise("Wall Sit", 30, "wallsit", "#ff6b6b", "https://picsum.photos/id/1025/1200/800.jpg") ]),
    "neck" := Section(
      "Neck Mobility",
      "Gentle to advanced neck holds and controlled rotations.",
      [ Exercise("Chin Tuck Hold", 20, "neck1", "#ffb86b", "https://picsum.photos/id/1062/1200/800.jpg"),
        Exercise("Lateral Stretch", 30, "neck2", "#ffcc6b", "https://picsum.photos/id/1069/1200/800.jpg") ]),
    "pelvic" := Section(
      "Pelvic Flow",
      "Hip openers and pelvic stability holds.",
      [ Exercise("Hip Flexor Hold", 40, "hip", "#ff7b6b", "https://picsum.photos/id/1043/1200/800.jpg"),
        Exercise("Bridge Hold", 30, "bridge", "#ffd24d", "https://picsum.photos/id/1041/1200/800.jpg") ]),
    "back" := Section(
      "Lower & Upper Back",
      "Mobility and anti-stress holds for the spine.",
      [ Exercise("Child's Pose", 45, "child", "#ffd24d", "https://picsum.photos/id/1059/1200/800.jpg"),
        Exercise("Cat-Cow", 40, "catcow", "#ff914d", "https://picsum.photos/id/1057/1200/800.jpg") ]),
    "feet" := Section(
      "Feet & Ankles",
      "Improve balance and ankle mobility.",
      [ Exercise("Toe Raises", 30, "toe", "#ffd24d", "https://picsum.photos/id/1060/1200/800.jpg"),
        Exercise("Single-leg Balance", 40, "balance", "#ff6b6b", "https://picsum.photos/id/1068/1200/800.jpg") ]),
    "shoulders" := Section(
      "Shoulder Flow",
      "Open & strengthen the shoulder girdle.",
      [ Exercise("Wall Slide", 30, "wallslide", "#ff6b6b", "https://picsum.photos/id/1076/1200/800.jpg"),
        Exercise("Band Pullapart", 30, "band", "#ff914d", "https://picsum.photos/id/1080/1200/800.jpg") ]),
    "hamstrings" := Section(
      "Hamstrings",
      "Lengthening and controlled holds.",
      [ Exercise("Forward Fold", 45, "fold", "#ffd24d", "https://picsum.photos/id/1084/1200/800.jpg"),
        Exercise("Standing Hamstring", 40, "standham", "#ff6b6b", "https://picsum.photos/id/1082/1200/800.jpg") ]),
    "jump" := Section(
      "Massia Jump",
      "Explosive + mobility combo.",
      [ Exercise("Counter Jump", 30, "jump1", "#ff6b6b", "https://picsum.photos/id/1081/1200/800.jpg"),
        Exercise("Landing Hold", 30, "jump2", "#ffd24d", "https://picsum.photos/id/1019/1200/800.jpg") ])
  ]

  /** Every catalog section can be run. */
  lemma CatalogPlayable()
    ensures forall id :: id in Sections ==> Playable(Sections[id])
  {
  }
}

=== FILE: clock.dfy ===
/** `formatSeconds`: the `M:SS` rendering of a number of seconds shown as the
    exercise duration and the time left, together with the reading of such a
    string back into seconds that shows no information is lost. */
module Clock {
  import opened Timing

  predicate IsDigit(c: char)
  {
    '0' <= c <= '9'
  }

  predicate AllDigits(s: string)
  {
    forall i :: 0 <= i < |s| ==> IsDigit(s[i])
  }

  function DigitChar(d: int): (c: char)
    requires 0 <= d < 10
    ensures IsDigit(c)
  {
    ('0' as int + d) as char
  }

  function DigitValue(c: char): (d: int)
    requires IsDigit(c)
    ensures 0 <= d < 10
    ensures DigitChar(d) == c
  {
    c as int - '0' as int
  }

  lemma DigitRoundTrip(d: int)
    requires 0 <= d < 10
    ensures DigitValue(DigitChar(d)) == d
  {
  }

  /** `${n}` for a non-negative integer: its decimal digits, without a
      leading zero. */
  function Decimal(n: nat): (s: string)
    ensures |s| >= 1 && AllDigits(s)
  {
    if n < 10 then [DigitChar(n)] else Decimal(n / 10) + [DigitChar(n % 10)]
  }

  /** Only zero is printed with a leading zero, and exactly the numbers below
      ten are printed with one digit. */
  lemma {:induction false} DecimalShape(n: nat)
    ensures Decimal(n)[0] == '0' <==> n == 0
    ensures |Decimal(n)| == 1 <==> n < 10
  {
    if n >= 10 {
      DecimalShape(n / 10);
      assert Decimal(n)[0] == Decimal(n / 10)[0];
    }
  }

  /** The number a string of decimal digits denotes. */
  function DigitsValue(s: string): nat
    requires AllDigits(s)
  {
    if s == [] then 0 else DigitsValue(s[..|s| - 1]) * 10 + DigitValue(s[|s| - 1])
  }

  /** Reading back what `Decimal` prints gives the number printed. */
  lemma {:induction false} DigitsValueOfDecimal(n: nat)
    ensures DigitsValue(Decimal(n)) == n
  {
    if n >= 10 {
      var s := Decimal(n);
      assert s[..|s| - 1] == Decimal(n / 10);
      DigitsValueOfDecimal(n / 10);
      DigitRoundTrip(n % 10);
    } else {
      DigitRoundTrip(n);
    }
  }

  lemma DivModTen(hi: nat, lo: nat)
    requires lo < 10
    ensures (hi * 10 + lo) / 10 == hi && (hi * 10 + lo) % 10 == lo
  {
  }

  lemma DivModSixty(m: nat, q: nat)
    requires q < 60
    ensures (m * 60 + q) / 60 == m && (m * 60 + q) % 60 == q
  {
  }

  /** A digit string without a superfluous leading zero is what `Decimal`
      prints for its value. */
  lemma {:induction false} DecimalOfDigitsValue(s: string)
    requires |s| >= 1 && AllDigits(s)
    requires s[0] == '0' ==> |s| == 1
    ensures Decimal(DigitsValue(s)) == s
  {
    var init := s[..|s| - 1];
    var d := DigitValue(s[|s| - 1]);
    if |s| == 1 {
      assert init == [];
    } else {
      assert init[0] == s[0];
      DecimalOfDigitsValue(init);
      var v := DigitsValue(init);
      DecimalShape(v);
      DivModTen(v, d);
      assert s == init + [s[|s| - 1]];
    }
  }

  /** `String.prototype.padStart`: `fill` is put in front of `s` until it is
      `width` characters long. */
  function PadStart(s: string, width: nat, fill: char): (r: string)
    ensures |r| == if |s| >= width then |s| else width
    decreases width - |s|
  {
    if |s| >= width then s else PadStart([fill] + s, width, fill)
  }

  /** `padStart` keeps the original string as the tail of its result. */
  lemma {:induction false} PadStartSuffix(s: string, width: nat, fill: char)
    ensures var r := PadStart(s, width, fill);
      r[|r| - |s|..] == s
    decreases width - |s|
  {
    if |s| < width {
      var t := [fill] + s;
      PadStartSuffix(t, width, fill);
      var r := PadStart(s, width, fill);
      assert r[|r| - |s|..] == r[|r| - |t|..][1..];
    }
  }

  /** Everything `padStart` adds is the fill character. */
  lemma {:induction false} PadStartFill(s: string, width: nat, fill: char)
    ensures var r := PadStart(s, width, fill);
      forall i :: 0 <= i < |r| - |s| ==> r[i] == fill
    decreases width - |s|
  {
    if |s| < width {
      var t := [fill] + s;
      PadStartFill(t, width, fill);
      PadStartSuffix(t, width, fill);
      var r := PadStart(s, width, fill);
      assert r == PadStart(t, width, fill);
      assert r[|r| - |t|..] == t;
      assert r[|r| - |s| - 1] == t[0];
    }
  }

  lemma DecimalTwoDigits(q: nat)
    requires 10 <= q < 100
    ensures Decimal(q) == [DigitChar(q / 10), DigitChar(q % 10)]
  {
    assert Decimal(q / 10) == [DigitChar(q / 10)];
  }

  /** The value of a two-digit string. */
  lemma DigitsValueTwo(f: string)
    requires |f| == 2 && AllDigits(f)
    ensures DigitsValue(f) == DigitValue(f[0]) * 10 + DigitValue(f[1])
  {
    var init := f[..1];
    assert init[..0] == [];
    assert DigitsValue(init) == DigitsValue(init[..0]) * 10 + DigitValue(init[0]);
    assert DigitsValue(init) == DigitValue(f[0]);
    assert DigitsValue(f) == DigitsValue(init) * 10 + DigitValue(f[1]);
  }

  /** The seconds field of a time below ten seconds: a zero, then the digit. */
  lemma SecondsFieldLow(q: nat)
    requires q < 10
    ensures PadStart(Decimal(q), 2, '0') == ['0', DigitChar(q)]
  {
    assert Decimal(q) == [DigitChar(q)];
    assert PadStart([DigitChar(q)], 2, '0') == PadStart(['0', DigitChar(q)], 2, '0');
  }

  /** The seconds field of a time of ten seconds or more: its two digits. */
  lemma SecondsFieldHigh(q: nat)
    requires 10 <= q < 60
    ensures PadStart(Decimal(q), 2, '0') == [DigitChar(q / 10), DigitChar(q % 10)]
  {
    DecimalTwoDigits(q);
  }

  /** The seconds field: two digits, the first at most 5, worth `q`. */
  lemma SecondsField(q: nat)
    requires q < 60
    ensures var f := PadStart(Decimal(q), 2, '0');
      |f| == 2 && AllDigits(f) && f[0] <= '5' && DigitsValue(f) == q
  {
    var f := PadStart(Decimal(q), 2, '0');
    if q < 10 {
      SecondsFieldLow(q);
      DigitRoundTrip(0);
      DigitRoundTrip(q);
      assert '0' == DigitChar(0);
    } else {
      SecondsFieldHigh(q);
      DigitRoundTrip(q / 10);
      DigitRoundTrip(q % 10);
    }
    DigitsValueTwo(f);
  }

  /** Two digits whose first is at most 5 are the padded seconds field of
      the number they denote. */
  lemma SecondsFieldInverse(f: string)
    requires |f| == 2 && AllDigits(f) && f[0] <= '5'
    ensures DigitsValue(f) < 60
    ensures PadStart(Decimal(DigitsValue(f)), 2, '0') == f
  {
    DigitsValueTwo(f);
    var hi := DigitValue(f[0]);
    var lo := DigitValue(f[1]);
    assert hi <= 5;
    var q := hi * 10 + lo;
    assert f == [DigitChar(hi), DigitChar(lo)];
    if hi == 0 {
      SecondsFieldLow(lo);
      assert DigitChar(0) == '0';
    } else {
      DivModTen(hi, lo);
      SecondsFieldHigh(q);
    }
  }

  /** The shape `formatSeconds` produces: minutes without a leading zero, a
      colon, then exactly two digits of seconds below 60. */
  predicate WellFormedClock(r: string)
  {
    && |r| >= 4
    && r[|r| - 3] == ':'
    && AllDigits(r[..|r| - 3])
    && (r[0] == '0' ==> |r| == 4)
    && AllDigits(r[|r| - 2..])
    && r[|r| - 2] <= '5'
  }

  /** The number of seconds a well-formed `M:SS` string stands for. */
  function ClockValue(r: string): nat
    requires WellFormedClock(r)
  {
    DigitsValue(r[..|r| - 3]) * 60 + DigitsValue(r[|r| - 2..])
  }

  /** The `M:SS` text for a whole, non-negative number of seconds: the
      minutes, a colon, and the leftover seconds padded to two digits. */
  function ClockText(t: nat): string
  {
    Decimal(t / 60) + ":" + PadStart(Decimal(t % 60), 2, '0')
  }

  /** `formatSeconds(sec)`: round, clamp at zero, then print as `M:SS`. The
      text is well formed and worth exactly the rounded, clamped seconds. */
  function FormatSeconds(sec: real): (r: string)
    ensures WellFormedClock(r)
    ensures ClockValue(r) == Max(0, Round(sec))
  {
    ClockTextValue(Max(0, Round(sec)));
    ClockText(Max(0, Round(sec)))
  }

  /** Where the fields of a clock text sit. */
  lemma ClockTextFields(t: nat)
    ensures var r := ClockText(t);
      && |r| >= 4
      && r[..|r| - 3] == Decimal(t / 60)
      && r[|r| - 3] == ':'
      && r[|r| - 2..] == PadStart(Decimal(t % 60), 2, '0')
      && r[0] == Decimal(t / 60)[0]
  {
    SecondsField(t % 60);
  }

  lemma ClockTextWellFormed(t: nat)
    ensures WellFormedClock(ClockText(t))
  {
    ClockTextFields(t);
    SecondsField(t % 60);
    DecimalShape(t / 60);
  }

  /** A clock text is worth exactly the number of seconds it was made from. */
  lemma ClockTextValue(t: nat)
    ensures WellFormedClock(ClockText(t))
    ensures ClockValue(ClockText(t)) == t
  {
    var r := ClockText(t);
    ClockTextWellFormed(t);
    ClockTextFields(t);
    SecondsField(t % 60);
    DigitsValueOfDecimal(t / 60);
    var a := DigitsValue(r[..|r| - 3]);
    var b := DigitsValue(r[|r| - 2..]);
    assert a == t / 60 && b == t % 60;
    assert ClockValue(r) == a * 60 + b;
  }

  /** The minutes and seconds fields of a well-formed `M:SS` string are the
      quotient and remainder of its value by 60. */
  lemma ClockFields(r: string)
    requires WellFormedClock(r)
    ensures ClockValue(r) / 60 == DigitsValue(r[..|r| - 3])
    ensures ClockValue(r) % 60 == DigitsValue(r[|r| - 2..])
  {
    var a := DigitsValue(r[..|r| - 3]);
    var b := DigitsValue(r[|r| - 2..]);
    assert b < 60 by {
      SecondsFieldInverse(r[|r| - 2..]);
    }
    assert ClockValue(r) == a * 60 + b;
    DivModSixty(a, b);
  }

  lemma ClockSplit(r: string)
    requires WellFormedClock(r)
    ensures r == r[..|r| - 3] + ":" + r[|r| - 2..]
  {
  }

  /** The minutes field is the decimal rendering of its own value. */
  lemma MinutesFieldInverse(r: string)
    requires WellFormedClock(r)
    ensures Decimal(DigitsValue(r[..|r| - 3])) == r[..|r| - 3]
  {
    var m := r[..|r| - 3];
    assert m[0] == r[0];
    DecimalOfDigitsValue(m);
  }

  /** Every well-formed `M:SS` string is the text of the number of seconds
      it stands for. */
  lemma ClockTextOfValue(r: string)
    requires WellFormedClock(r)
    ensures ClockText(ClockValue(r)) == r
  {
    ClockFields(r);
    ClockSplit(r);
    MinutesFieldInverse(r);
    SecondsFieldInverse(r[|r| - 2..]);
  }

  /** Rounding leaves a whole number of seconds as it is. */
  lemma FormatWholeSeconds(t: nat)
    ensures FormatSeconds(t as real) == ClockText(t)
  {
    RoundUnique(t as real, t);
    assert Max(0, Round(t as real)) == t;
  }

  /** Printing a whole number of seconds and reading the text back gives
      the number again. */
  lemma FormatThenRead(t: nat)
    ensures WellFormedClock(FormatSeconds(t as real))
    ensures ClockValue(FormatSeconds(t as real)) == t
  {
    FormatWholeSeconds(t);
    ClockTextValue(t);
  }

  /** Every well-formed `M:SS` string is what gets printed for the number of
      seconds it stands for. */
  lemma ReadThenFormat(r: string)
    requires WellFormedClock(r)
    ensures FormatSeconds(ClockValue(r) as real) == r
  {
    FormatWholeSeconds(ClockValue(r));
    ClockTextOfValue(r);
  }

  /** Distinct non-negative whole numbers of seconds print differently. */
  lemma FormatSecondsInjective(a: nat, b: nat)
    requires FormatSeconds(a as real) == FormatSeconds(b as real)
    ensures a == b
  {
    FormatThenRead(a);
    FormatThenRead(b);
  }

  lemma ClockTextTwoMinutesFive()
    ensures ClockText(125) == "2:05"
  {
    SecondsFieldLow(5);
    assert Decimal(2) == "2";
  }

  lemma ClockTextUnderAMinute()
    ensures ClockText(59) == "0:59"
  {
    SecondsFieldHigh(59);
    assert Decimal(0) == "0";
  }

  lemma ClockTextZero()
    ensures ClockText(0) == "0:00"
  {
    SecondsFieldLow(0);
    assert Decimal(0) == "0";
  }

  lemma FormatTwoMinutesFive()
    ensures FormatSeconds(125.0) == "2:05"
  {
    FormatWholeSeconds(125);
    ClockTextTwoMinutesFive();
  }

  lemma FormatUnderAMinute()
    ensures FormatSeconds(59.0) == "0:59"
  {
    FormatWholeSeconds(59);
    ClockTextUnderAMinute();
  }

  lemma FormatZero()
    ensures FormatSeconds(0.0) == "0:00"
  {
    FormatWholeSeconds(0);
    ClockTextZero();
  }

  lemma FormatNegative()
    ensures FormatSeconds(-3.0) == "0:00"
  {
    RoundUnique(-3.0, -3);
    FormatZero();
  }

  /** Sample renderings: two minutes five, under a minute, zero, and a
      negative amount clamped to zero. */
  lemma FormatSecondsExamples()
    ensures FormatSeconds(125.0) == "2:05"
    ensures FormatSeconds(59.0) == "0:59"
    ensures FormatSeconds(0.0) == "0:00"
    ensures FormatSeconds(-3.0) == "0:00"
  {
    FormatTwoMinutesFive();
    FormatUnderAMinute();
    FormatZero();
    FormatNegative();
  }
}

=== FILE: markup.dfy ===
/** The escaping step of the fallback-image generator: before an exercise
    name is placed inside the SVG `<text>` element, every `&`, `<` and `>` is
    replaced by its character entity, in that order, one whole-string pass
    per character. */
module Markup {

  /** `s.replace(/c/g, rep)` for a one-character pattern: every occurrence
      of `c` becomes `rep`, everything else is kept. */
  function ReplaceAll(s: string, c: char, rep: string): (r: string)
    ensures forall x :: x in r ==> (x in s && x != c) || x in rep
    ensures c !in s ==> r == s
  {
    if s == [] then []
    else (if s[0] == c then rep else [s[0]]) + ReplaceAll(s[1..], c, rep)
  }

  /** Replacing in a concatenation replaces in each part. */
  lemma {:induction false} ReplaceAllAppend(a: string, b: string, c: char, rep: string)
    ensures ReplaceAll(a + b, c, rep) == ReplaceAll(a, c, rep) + ReplaceAll(b, c, rep)
  {
    if a != [] {
      var head := if a[0] == c then rep else [a[0]];
      assert (a + b)[0] == a[0];
      assert (a + b)[1..] == a[1..] + b;
      ReplaceAllAppend(a[1..], b, c, rep);
      assert ReplaceAll(a + b, c, rep) == head + ReplaceAll(a[1..] + b, c, rep);
      assert ReplaceAll(a, c, rep) == head + ReplaceAll(a[1..], c, rep);
    } else {
      assert a + b == b;
    }
  }

  /** The three passes the generator applies to a title. */
  function EscapeText(s: string): (r: string)
    ensures '<' !in r && '>' !in r
  {
    ReplaceAll(ReplaceAll(ReplaceAll(s, '&', "&amp;"), '<', "&lt;"), '>', "&gt;")
  }

  /** The entity for one character, or the character itself. */
  function EscapeChar(c: char): string
  {
    if c == '&' then "&amp;"
    else if c == '<' then "&lt;"
    else if c == '>' then "&gt;"
    else [c]
  }

  /** A single left-to-right pass that escapes each character on its own. */
  function EscapeEach(s: string): string
  {
    if s == [] then [] else EscapeChar(s[0]) + EscapeEach(s[1..])
  }

  /** Replacing in a one-character string. */
  lemma ReplaceAllOne(x: char, c: char, rep: string)
    ensures ReplaceAll([x], c, rep) == if x == c then rep else [x]
  {
    assert [x][1..] == [];
  }

  /** On one character the three passes give that character's entity. */
  lemma EscapeTextOneChar(c: char)
    ensures EscapeText([c]) == EscapeChar(c)
  {
    ReplaceAllOne(c, '&', "&amp;");
    if c == '&' {
      assert '<' !in "&amp;" && '>' !in "&amp;";
    } else if c == '<' {
      ReplaceAllOne(c, '<', "&lt;");
      assert '>' !in "&lt;";
    } else {
      ReplaceAllOne(c, '<', "&lt;");
      ReplaceAllOne(c, '>', "&gt;");
    }
  }

  /** The three sequential passes agree with the single pass: no entity one
      pass inserts is touched by a later pass. */
  lemma {:induction false} EscapeTextIsEscapeEach(s: string)
    ensures EscapeText(s) == EscapeEach(s)
  {
    if s != [] {
      var c := s[0];
      var t := s[1..];
      assert s == [c] + t;
      var a1 := ReplaceAll([c], '&', "&amp;");
      var b1 := ReplaceAll(t, '&', "&amp;");
      ReplaceAllAppend([c], t, '&', "&amp;");
      var a2 := ReplaceAll(a1, '<', "&lt;");
      var b2 := ReplaceAll(b1, '<', "&lt;");
      ReplaceAllAppend(a1, b1, '<', "&lt;");
      ReplaceAllAppend(a2, b2, '>', "&gt;");
      assert EscapeText(s) == EscapeText([c]) + EscapeText(t);
      EscapeTextOneChar(c);
      EscapeTextIsEscapeEach(t);
    }
  }

  /** Reads the entities `&amp;`, `&lt;` and `&gt;` back into characters. */
  function Unescape(s: string): string
    decreases |s|
  {
    if s == [] then []
    else if |s| >= 5 && s[..5] == "&amp;" then "&" + Unescape(s[5..])
    else if |s| >= 4 && s[..4] == "&lt;" then "<" + Unescape(s[4..])
    else if |s| >= 4 && s[..4] == "&gt;" then ">" + Unescape(s[4..])
    else [s[0]] + Unescape(s[1..])
  }

  /** Escaping loses nothing: the original title can be read back. */
  lemma {:induction false} UnescapeEscapeText(s: string)
    ensures Unescape(EscapeText(s)) == s
  {
    EscapeTextIsEscapeEach(s);
    UnescapeEscapeEach(s);
  }

  lemma {:induction false} UnescapeEscapeEach(s: string)
    ensures Unescape(EscapeEach(s)) == s
  {
    if s != [] {
      var c := s[0];
      var rest := EscapeEach(s[1..]);
      UnescapeEscapeEach(s[1..]);
      UnescapeEntity(c, rest);
      assert [c] + s[1..] == s;
    }
  }

  /** Reading back one escaped character followed by anything. */
  lemma UnescapeEntity(c: char, rest: string)
    ensures Unescape(EscapeChar(c) + rest) == [c] + Unescape(rest)
  {
    var e := EscapeChar(c) + rest;
    if c == '&' {
      assert e[..5] == "&amp;" && e[5..] == rest;
    } else if c == '<' {
      assert e[..4] == "&lt;" && e[4..] == rest;
      assert !(|e| >= 5 && e[..5] == "&amp;") by {
        if |e| >= 5 {
          assert e[..5][1] == e[1] == 'l';
        }
      }
    } else if c == '>' {
      assert e[..4] == "&gt;" && e[4..] == rest;
      assert !(|e| >= 5 && e[..5] == "&amp;") by {
        if |e| >= 5 {
          assert e[..5][1] == e[1] == 'g';
        }
      }
      assert e[..4] != "&lt;" by {
        assert e[..4][1] == 'g';
      }
    } else {
      assert e[0] == c && e[1..] == rest;
      assert !(|e| >= 5 && e[..5] == "&amp;") by {
        if |e| >= 5 {
          assert e[..5][0] == c;
        }
      }
      assert !(|e| >= 4 && e[..4] == "&lt;") && !(|e| >= 4 && e[..4] == "&gt;") by {
        if |e| >= 4 {
          assert e[..4][0] == c;
        }
      }
    }
  }
}

=== FILE: playback.dfy ===
/** The exercise-session state machine of the player. Every handler of the
    page and every firing of a timer callback is a pure transition; the wall
    clock enters only as the speed-scaled number of seconds an interval tick
    observes. */
module Playback {
  import opened Timing
  import opened Catalog

  /** The repeating countdown callback, when one is scheduled, with the two
      values it captured when it was started. */
  datatype Timer = NoInterval | Interval(startRemaining: int, total: int)

  /** The state of a loaded section. `section` is the session's own copy of
      the catalog entry, which duration edits change; `progress` is the
      progress-bar width in percent that the code last computed or assigned
      (a negative value is computed but would not be accepted as a width);
      `pendingSettles` counts the settle callbacks scheduled by completed
      countdowns that have not fired yet; `complete` holds while the exercise
      title shows the end-of-session banner. */
  datatype Session = Session(
    sectionId: string,
    section: Section,
    index: nat,
    playing: bool,
    remaining: int,
    progress: real,
    timer: Timer,
    pendingSettles: nat,
    complete: bool)
  {
    function Count(): nat
    {
      |section.exercises|
    }

    predicate InRange(i: int)
    {
      0 <= i < Count()
    }

    predicate AtLast()
    {
      index >= Count() - 1
    }
  }

  /** The page before any section was chosen, and after. */
  datatype Player = NoSection | Loaded(session: Session)

  /** What a session can rely on between any two events: a runnable section,
      an index inside it, a countdown that is never negative, and a scheduled
      interval exactly while playing, started from a non-negative count over a
      full-length exercise. */
  predicate ValidSession(s: Session)
  {
    && Playable(s.section)
    && s.InRange(s.index)
    && s.remaining >= 0
    && (s.playing <==> s.timer.Interval?)
    && (s.timer.Interval? ==> s.timer.startRemaining >= 0 && s.timer.total >= MinDuration)
  }

  predicate Valid(p: Player)
  {
    p.Loaded? ==> ValidSession(p.session)
  }

  // ---------------------------------------------------------------------
  // Session transitions

  /** Shows exercise `idx`: its full duration on the clock and an empty bar.
      An index outside the section changes nothing. */
  function LoadExercise(s: Session, idx: int): (r: Session)
    ensures s.InRange(idx) ==> r.remaining == s.section.exercises[idx].duration && r.progress == 0.0 && !r.complete
    ensures !s.InRange(idx) ==> r == s
    ensures r.section == s.section && r.index == s.index && r.playing == s.playing && r.timer == s.timer
    ensures r.pendingSettles == s.pendingSettles && r.sectionId == s.sectionId
    ensures ValidSession(s) ==> ValidSession(r)
  {
    if s.InRange(idx) then
      s.(remaining := s.section.exercises[idx].duration, progress := 0.0, complete := false)
    else
      s
  }

  /** Marks the session as playing and, when the current exercise exists,
      replaces any interval by one counting down from the current remaining
      time over the exercise's duration. */
  function StartWorkout(s: Session): (r: Session)
    ensures r.playing
    ensures s.InRange(s.index) ==> r.timer == Interval(s.remaining, s.section.exercises[s.index].duration)
    ensures !s.InRange(s.index) ==> r.timer == s.timer
    ensures r.remaining == s.remaining && r.section == s.section && r.index == s.index
    ensures r.progress == s.progress && r.pendingSettles == s.pendingSettles && r.complete == s.complete
    ensures r.sectionId == s.sectionId
    ensures ValidSession(s) ==> ValidSession(r)
  {
    if s.InRange(s.index) then
      s.(playing := true, timer := Interval(s.remaining, s.section.exercises[s.index].duration))
    else
      s.(playing := true)
  }

  /** Not playing, no interval; the displayed countdown is kept. */
  function StopWorkout(s: Session): (r: Session)
    ensures !r.playing && r.timer == NoInterval
    ensures r.remaining == s.remaining && r.section == s.section && r.index == s.index
    ensures r.progress == s.progress && r.pendingSettles == s.pendingSettles
    ensures r.complete == s.complete && r.sectionId == s.sectionId
    ensures ValidSession(s) ==> ValidSession(r)
  {
    s.(playing := false, timer := NoInterval)
  }

  /** One firing of the interval callback, `elapsed` seconds (speed-scaled)
      after the interval started. It recomputes the countdown from the
      captured starting value, redraws the bar from the captured total and,
      once nothing remains, stops the interval and schedules one settle
      callback. Without an interval there is no callback to fire. */
  function Tick(s: Session, elapsed: real): (r: Session)
    ensures s.timer.NoInterval? ==> r == s
    ensures s.timer.Interval? ==>
      && r.remaining == RemainingAfter(s.timer.startRemaining, elapsed)
      && r.progress == Progress(s.timer.total, r.remaining)
    ensures s.timer.Interval? && r.remaining == 0 ==>
      !r.playing && r.timer == NoInterval && r.pendingSettles == s.pendingSettles + 1
    ensures s.timer.Interval? && r.remaining != 0 ==>
      r.playing == s.playing && r.timer == s.timer && r.pendingSettles == s.pendingSettles
    ensures r.section == s.section && r.index == s.index && r.complete == s.complete
    ensures r.sectionId == s.sectionId
    ensures ValidSession(s) ==> ValidSession(r)
  {
    match s.timer
    case NoInterval => s
    case Interval(startRemaining, total) =>
      var rem := RemainingAfter(startRemaining, elapsed);
      var shown := s.(remaining := rem, progress := Progress(total, rem));
      if rem <= 0 then
        shown.(playing := false, timer := NoInterval, pendingSettles := s.pendingSettles + 1)
      else
        shown
  }

  /** One firing of a settle callback: before the last exercise it moves to
      the next one and starts it at full length; at the last one it shows the
      completed session with a full bar. */
  function Settle(s: Session): (r: Session)
    ensures s.pendingSettles == 0 ==> r == s
    ensures s.pendingSettles > 0 ==> r.pendingSettles == s.pendingSettles - 1 && r.section == s.section
    ensures r.sectionId == s.sectionId
    ensures s.pendingSettles > 0 && !s.AtLast() ==>
      && r.index == s.index + 1
      && r.remaining == s.section.exercises[s.index + 1].duration
      && r.playing && r.progress == 0.0 && !r.complete
      && r.timer == Interval(r.remaining, r.remaining)
    ensures s.pendingSettles > 0 && s.AtLast() ==>
      && r.complete && r.progress == 100.0
      && r.index == s.index && r.remaining == s.remaining && r.playing == s.playing && r.timer == s.timer
    ensures ValidSession(s) ==> ValidSession(r)
  {
    if s.pendingSettles == 0 then
      s
    else
      var fired := s.(pendingSettles := s.pendingSettles - 1);
      if !s.AtLast() then
        StartWorkout(LoadExercise(fired.(index := s.index + 1), s.index + 1))
      else
        fired.(complete := true, progress := 100.0)
  }

  /** The previous exercise, stopped, at full length; nothing happens at the
      first one. */
  function Prev(s: Session): (r: Session)
    ensures s.index == 0 ==> r == s
    ensures s.index > 0 ==>
      && r.index == s.index - 1 && !r.playing && r.timer == NoInterval
      && (s.InRange(s.index - 1) ==>
            r.remaining == s.section.exercises[s.index - 1].duration && r.progress == 0.0 && !r.complete)
    ensures r.section == s.section && r.pendingSettles == s.pendingSettles && r.sectionId == s.sectionId
    ensures ValidSession(s) ==> ValidSession(r)
  {
    if s.index > 0 then
      LoadExercise(StopWorkout(s.(index := s.index - 1)), s.index - 1)
    else
      s
  }

  /** The next exercise, stopped, at full length; nothing happens at the
      last one. */
  function Next(s: Session): (r: Session)
    ensures s.AtLast() ==> r == s
    ensures !s.AtLast() ==>
      && r.index == s.index + 1 && !r.playing && r.timer == NoInterval
      && r.remaining == s.section.exercises[s.index + 1].duration && r.progress == 0.0 && !r.complete
    ensures r.section == s.section && r.pendingSettles == s.pendingSettles && r.sectionId == s.sectionId
    ensures ValidSession(s) ==> ValidSession(r)
  {
    if !s.AtLast() then
      LoadExercise(StopWorkout(s.(index := s.index + 1)), s.index + 1)
    else
      s
  }

  /** Changes the current exercise's duration by `delta`, never below the
      minimum, and shows the new duration on the clock. Any running interval
      keeps the values it captured. */
  function Adjust(s: Session, delta: int): (r: Session)
    requires s.InRange(s.index)
    ensures r.Count() == s.Count()
    ensures r.section.exercises[s.index].duration == Max(MinDuration, s.section.exercises[s.index].duration + delta)
    ensures r.section.exercises[s.index].duration >= MinDuration
    ensures r.section.exercises[s.index].name == s.section.exercises[s.index].name
    ensures forall i :: 0 <= i < s.Count() && i != s.index ==> r.section.exercises[i] == s.section.exercises[i]
    ensures r.section.title == s.section.title && r.section.desc == s.section.desc
    ensures r.remaining == r.section.exercises[s.index].duration
    ensures r.index == s.index && r.playing == s.playing && r.timer == s.timer && r.progress == s.progress
    ensures r.pendingSettles == s.pendingSettles && r.complete == s.complete && r.sectionId == s.sectionId
    ensures ValidSession(s) ==> ValidSession(r)
  {
    var ex := s.section.exercises[s.index];
    var d := Max(MinDuration, ex.duration + delta);
    s.(section := s.section.(exercises := s.section.exercises[s.index := ex.(duration := d)]),
       remaining := d)
  }

  // ---------------------------------------------------------------------
  // Page-level handlers

  /** The globals before any section was chosen. */
  function Blank(): Session
  {
    Session("", Section("", "", []), 0, false, 0, 0.0, NoInterval, 0, false)
  }

  function Globals(p: Player): Session
  {
    if p.Loaded? then p.session else Blank()
  }

  /** Starts a catalog section from its first exercise, stopped, on a fresh
      copy of the catalog entry. Settle callbacks still pending from the
      previous section are not cancelled. */
  function LoadSection(p: Player, id: string): (r: Player)
    requires id in Sections
    ensures r.Loaded?
    ensures r.session.sectionId == id && r.session.section == Sections[id]
    ensures r.session.index == 0 && !r.session.playing && r.session.timer == NoInterval
    ensures r.session.remaining == Sections[id].exercises[0].duration && r.session.progress == 0.0
    ensures !r.session.complete
    ensures r.session.pendingSettles == Globals(p).pendingSettles
    ensures Valid(r)
  {
    CatalogPlayable();
    var g := Globals(p);
    Loaded(LoadExercise(g.(sectionId := id, section := Sections[id], index := 0, playing := false, timer := NoInterval), 0))
  }

  /** A section button: identifiers outside the catalog are ignored. */
  function SelectSection(p: Player, id: string): (r: Player)
    ensures id !in Sections ==> r == p
    ensures id in Sections ==> r == LoadSection(p, id)
    ensures Valid(p) ==> Valid(r)
  {
    if id in Sections then LoadSection(p, id) else p
  }

  /** The start/stop button: without a section it only warns; otherwise it
      starts when stopped and stops when playing. */
  function TogglePlay(p: Player): (r: Player)
    ensures p.NoSection? ==> r == p
    ensures p.Loaded? ==> r.Loaded? && r.session.playing == !p.session.playing
    ensures p.Loaded? && p.session.playing ==> r.session == StopWorkout(p.session)
    ensures p.Loaded? && !p.session.playing ==> r.session == StartWorkout(p.session)
    ensures Valid(p) ==> Valid(r)
  {
    match p
    case NoSection => p
    case Loaded(s) => if !s.playing then Loaded(StartWorkout(s)) else Loaded(StopWorkout(s))
  }

  function PrevExercise(p: Player): (r: Player)
    ensures p.NoSection? ==> r == p
    ensures p.Loaded? ==> r == Loaded(Prev(p.session))
    ensures Valid(p) ==> Valid(r)
  {
    match p
    case NoSection => p
    case Loaded(s) => Loaded(Prev(s))
  }

  function NextExercise(p: Player): (r: Player)
    ensures p.NoSection? ==> r == p
    ensures p.Loaded? ==> r == Loaded(Next(p.session))
    ensures Valid(p) ==> Valid(r)
  {
    match p
    case NoSection => p
    case Loaded(s) => Loaded(Next(s))
  }

  /** The duration buttons. A loaded session must point at an existing
      exercise, which every valid player does. */
  function AdjustDuration(p: Player, delta: int): (r: Player)
    requires p.Loaded? ==> p.session.InRange(p.session.index)
    ensures p.NoSection? ==> r == p
    ensures p.Loaded? ==> r == Loaded(Adjust(p.session, delta))
    ensures Valid(p) ==> Valid(r)
  {
    match p
    case NoSection => p
    case Loaded(s) => Loaded(Adjust(s, delta))
  }

  /** Everything that can happen to the page: the buttons, and the firing of
      the two kinds of timer callback. */
  datatype Event =
    | SectionClicked(id: string)
    | StartStopClicked
    | PrevClicked
    | NextClicked
    | DecreaseClicked
    | IncreaseClicked
    | IntervalFired(elapsed: real)
    | SettleFired

  /** Seconds one press of a duration button adds or removes. */
  const DurationStep := 5

  function Step(p: Player, e: Event): (r: Player)
    requires Valid(p)
    ensures Valid(r)
    ensures p.NoSection? && !e.SectionClicked? ==> r == p
  {
    match e
    case SectionClicked(id) => SelectSection(p, id)
    case StartStopClicked => TogglePlay(p)
    case PrevClicked => PrevExercise(p)
    case NextClicked => NextExercise(p)
    case DecreaseClicked => AdjustDuration(p, -DurationStep)
    case IncreaseClicked => AdjustDuration(p, DurationStep)
    case IntervalFired(elapsed) => if p.Loaded? then Loaded(Tick(p.session, elapsed)) else p
    case SettleFired => if p.Loaded? then Loaded(Settle(p.session)) else p
  }

  /** The page after a sequence of events, in order. */
  function Run(p: Player, es: seq<Event>): (r: Player)
    requires Valid(p)
    ensures Valid(r)
    ensures r.Loaded? ==> 0 <= r.session.index < r.session.Count()
    decreases |es|
  {
    if es == [] then p else Run(Step(p, es[0]), es[1..])
  }
}

=== FILE: playback_proofs.dfy ===
/** Properties of the session state machine that relate several events. */
module PlaybackProofs {
  import opened Timing
  import opened Catalog
  import opened Playback

  // ---------------------------------------------------------------------
  // Loading a section

  /** Duration edits change the session's copy only: reloading the section
      brings back the catalog's durations. */
  lemma ReloadRestoresCatalog(p: Player, id: string, delta: int)
    requires Valid(p) && id in Sections
    ensures AdjustDuration(LoadSection(p, id), delta).session.section.exercises[0].duration
            == Max(MinDuration, Sections[id].exercises[0].duration + delta)
    ensures LoadSection(AdjustDuration(LoadSection(p, id), delta), id).session.section == Sections[id]
    ensures LoadSection(AdjustDuration(LoadSection(p, id), delta), id).session.remaining
            == Sections[id].exercises[0].duration
  {
  }

  /** Two sections that differ at most in their exercises' durations. */
  predicate SameButDurations(a: Section, b: Section)
  {
    && a.title == b.title && a.desc == b.desc
    && |a.exercises| == |b.exercises|
    && forall i :: 0 <= i < |a.exercises| ==>
         && a.exercises[i].name == b.exercises[i].name
         && a.exercises[i].variant == b.exercises[i].variant
         && a.exercises[i].color == b.exercises[i].color
         && a.exercises[i].img == b.exercises[i].img
  }

  /** The loaded session works on a copy of the catalog entry it names. */
  predicate FromCatalog(p: Player)
  {
    p.Loaded? ==>
      p.session.sectionId in Sections && SameButDurations(p.session.section, Sections[p.session.sectionId])
  }

  lemma AdjustKeepsShape(s: Session, delta: int)
    requires s.InRange(s.index)
    ensures SameButDurations(Adjust(s, delta).section, s.section)
  {
  }

  lemma SameButDurationsTransitive(a: Section, b: Section, c: Section)
    requires SameButDurations(a, b) && SameButDurations(b, c)
    ensures SameButDurations(a, c)
  {
  }

  lemma SameButDurationsReflexive(a: Section)
    ensures SameButDurations(a, a)
  {
  }

  /** Only the duration buttons change the session's section, and only a
      section button replaces it. */
  lemma StepFromCatalog(p: Player, e: Event)
    requires Valid(p) && FromCatalog(p)
    ensures FromCatalog(Step(p, e))
  {
    if p.Loaded? {
      var s := p.session;
      match e
      case SectionClicked(id) =>
        if id in Sections {
          SameButDurationsReflexive(Sections[id]);
        }
      case DecreaseClicked =>
        AdjustKeepsShape(s, -DurationStep);
        SameButDurationsTransitive(Adjust(s, -DurationStep).section, s.section, Sections[s.sectionId]);
      case IncreaseClicked =>
        AdjustKeepsShape(s, DurationStep);
        SameButDurationsTransitive(Adjust(s, DurationStep).section, s.section, Sections[s.sectionId]);
      case _ =>
        assert Step(p, e).session.section == s.section && Step(p, e).session.sectionId == s.sectionId;
    } else if e.SectionClicked? && e.id in Sections {
      SameButDurationsReflexive(Sections[e.id]);
    }
  }

  /** Whatever happens on the page, the session's section is the catalog
      entry it was loaded from, except for the durations edited since. */
  lemma {:induction false} RunFromCatalog(p: Player, es: seq<Event>)
    requires Valid(p) && FromCatalog(p)
    ensures FromCatalog(Run(p, es))
    decreases |es|
  {
    if es != [] {
      StepFromCatalog(p, es[0]);
      RunFromCatalog(Step(p, es[0]), es[1..]);
    }
  }

  // ---------------------------------------------------------------------
  // Start and stop

  /** Starting and then stopping a stopped session gives it back unchanged. */
  lemma ToggleTwiceWhenStopped(p: Player)
    requires Valid(p) && p.Loaded? && !p.session.playing
    ensures TogglePlay(TogglePlay(p)) == p
  {
  }

  lemma StopIdempotent(s: Session)
    ensures StopWorkout(StopWorkout(s)) == StopWorkout(s)
  {
  }

  // ---------------------------------------------------------------------
  // Interval ticks

  /** A tick never shows more than the count it started from, and never less
      than zero. */
  lemma TickBounded(s: Session, elapsed: real)
    requires ValidSession(s) && s.playing && 0.0 <= elapsed
    ensures 0 <= Tick(s, elapsed).remaining <= s.timer.startRemaining
  {
  }

  /** Within one interval, a larger speed-scaled elapsed time never shows
      more time remaining; at a constant speed, neither does a later tick. */
  lemma TickMonotone(s: Session, e1: real, e2: real)
    requires s.timer.Interval? && e1 <= e2
    ensures Tick(s, e2).remaining <= Tick(s, e1).remaining
  {
    RemainingAfterMonotone(s.timer.startRemaining, e1, e2);
  }

  /** A tick depends only on the interval's captured values: an earlier tick
      that did not finish the countdown leaves no trace in a later one. */
  lemma TickMemoryless(s: Session, e1: real, e2: real)
    requires s.timer.Interval? && Tick(s, e1).remaining != 0
    ensures Tick(Tick(s, e1), e2) == Tick(s, e2)
  {
  }

  /** Pausing and resuming continues from the count shown at the pause, not
      from the exercise's full duration: any tick of the resumed interval
      within its first half second of speed-scaled time shows that count
      again. */
  lemma PauseResume(s: Session, elapsed: real, resumed: real)
    requires ValidSession(s) && s.playing && Tick(s, elapsed).remaining != 0
    requires 0.0 <= resumed < 0.5
    ensures StartWorkout(StopWorkout(Tick(s, elapsed))).timer
            == Interval(Tick(s, elapsed).remaining, s.section.exercises[s.index].duration)
    ensures Tick(StartWorkout(StopWorkout(Tick(s, elapsed))), resumed).remaining == Tick(s, elapsed).remaining
  {
    var paused := Tick(s, elapsed).remaining;
    RoundUnique(paused as real - resumed, paused);
  }

  /** While the interval started from no more than its total, the bar stays
      between empty and full. */
  lemma TickProgressBounded(s: Session, elapsed: real)
    requires ValidSession(s) && s.playing && s.timer.startRemaining <= s.timer.total && 0.0 <= elapsed
    ensures 0.0 <= Tick(s, elapsed).progress <= 100.0
  {
  }

  /** Fires the interval once for each entry of `es`, in order. */
  function TickAll(s: Session, es: seq<real>): Session
    decreases |es|
  {
    if es == [] then s else TickAll(Tick(s, es[0]), es[1..])
  }

  /** Some firing of a countdown that started at `startRemaining` is late
      enough to finish it. */
  predicate Finishes(startRemaining: int, es: seq<real>)
  {
    exists i :: 0 <= i < |es| && startRemaining as real - es[i] < 0.5
  }

  lemma TickAllIdle(s: Session, es: seq<real>)
    requires s.timer.NoInterval?
    ensures TickAll(s, es) == s
    decreases |es|
  {
    if es != [] {
      TickAllIdle(Tick(s, es[0]), es[1..]);
    }
  }

  /** However often the interval fires, a countdown schedules at most one
      settle callback, and schedules one exactly when some firing comes late
      enough to finish it; afterwards no interval is left running. */
  lemma {:induction false} CompletionSignalledOnce(s: Session, es: seq<real>)
    requires s.timer.Interval?
    ensures Finishes(s.timer.startRemaining, es) ==>
      TickAll(s, es).pendingSettles == s.pendingSettles + 1 && TickAll(s, es).timer == NoInterval
    ensures !Finishes(s.timer.startRemaining, es) ==>
      TickAll(s, es).pendingSettles == s.pendingSettles && TickAll(s, es).timer == s.timer
    decreases |es|
  {
    if es != [] {
      var sr := s.timer.startRemaining;
      var t := Tick(s, es[0]);
      if sr as real - es[0] < 0.5 {
        TickAllIdle(t, es[1..]);
        assert Finishes(sr, es);
      } else {
        CompletionSignalledOnce(t, es[1..]);
        assert Finishes(sr, es) <==> Finishes(sr, es[1..]) by {
          if Finishes(sr, es) {
            var i :| 0 <= i < |es| && sr as real - es[i] < 0.5;
            assert i != 0;
            assert es[1..][i - 1] == es[i];
          }
          if Finishes(sr, es[1..]) {
            var j :| 0 <= j < |es[1..]| && sr as real - es[1..][j] < 0.5;
            assert es[j + 1] == es[1..][j];
          }
        }
      }
    }
  }

  // ---------------------------------------------------------------------
  // Completion and auto-advance

  /** The tick that finishes a countdown followed by its settle callback:
      before the last exercise the next one runs at full length, at the last
      one the session shows as complete with a full bar. */
  lemma FinishThenSettle(s: Session, elapsed: real)
    requires ValidSession(s) && s.playing && Tick(s, elapsed).remaining == 0
    ensures !s.AtLast() ==>
      && Settle(Tick(s, elapsed)).index == s.index + 1
      && Settle(Tick(s, elapsed)).playing
      && Settle(Tick(s, elapsed)).remaining == s.section.exercises[s.index + 1].duration
      && Settle(Tick(s, elapsed)).pendingSettles == s.pendingSettles
    ensures s.AtLast() ==>
      && Settle(Tick(s, elapsed)).complete
      && Settle(Tick(s, elapsed)).progress == 100.0
      && !Settle(Tick(s, elapsed)).playing
      && Settle(Tick(s, elapsed)).index == s.index
  {
  }

  /** Settle callbacks are never cancelled: one scheduled before choosing a
      section advances the newly loaded section. */
  lemma SettleSurvivesSectionChange(p: Player, id: string)
    requires Valid(p) && p.Loaded? && p.session.pendingSettles > 0
    requires id in Sections && |Sections[id].exercises| > 1
    ensures Settle(LoadSection(p, id).session).index == 1
    ensures Settle(LoadSection(p, id).session).playing
  {
  }

  /** Nor are they cancelled by the next button: the two moves add up. */
  lemma SettleSurvivesNext(s: Session)
    requires ValidSession(s) && s.pendingSettles > 0 && s.index + 2 < s.Count()
    ensures Settle(Next(s)).index == s.index + 2
    ensures Settle(Next(s)).playing
  {
  }

  // ---------------------------------------------------------------------
  // Navigation

  /** Moving forward and back lands on the same exercise, stopped and at full
      length. */
  lemma NextThenPrev(s: Session)
    requires ValidSession(s) && !s.AtLast()
    ensures Prev(Next(s)) == LoadExercise(StopWorkout(s), s.index)
  {
  }

  lemma PrevThenNext(s: Session)
    requires ValidSession(s) && s.index > 0
    ensures Next(Prev(s)) == LoadExercise(StopWorkout(s), s.index)
  {
  }

  // ---------------------------------------------------------------------
  // Duration edits

  /** One press of each duration button restores the exercise and shows its
      duration on the clock. */
  lemma IncreaseThenDecrease(s: Session)
    requires ValidSession(s)
    ensures Adjust(Adjust(s, DurationStep), -DurationStep)
            == s.(remaining := s.section.exercises[s.index].duration)
  {
    var ex := s.section.exercises[s.index];
    assert s.section.exercises[s.index := ex] == s.section.exercises;
  }

  /** While the interval runs, a duration edit shows on the clock only until
      the next tick, which counts down from the value captured at start; the
      edited duration itself stays in the section. */
  lemma AdjustOverriddenByTick(s: Session, delta: int, elapsed: real)
    requires ValidSession(s) && s.playing
    ensures Tick(Adjust(s, delta), elapsed).remaining == Tick(s, elapsed).remaining
    ensures Tick(Adjust(s, delta), elapsed).section == Adjust(s, delta).section
  {
  }

  // ---------------------------------------------------------------------
  // Pause and resume after an edit

  /** Starting a stopped exercise of at least eleven seconds at its full
      length, shortening it by one press, then pausing after one second of
      speed-scaled time and resuming, leaves a countdown longer than the
      exercise and a negative computed bar width at every tick within the
      first half second of speed-scaled time after the resume: the resumed
      interval captures the count shown by the last tick but the edited
      duration as its total. */
  lemma ProgressCanGoNegative(s: Session, resumed: real)
    requires ValidSession(s) && !s.playing
    requires s.remaining == s.section.exercises[s.index].duration >= MinDuration + DurationStep + 1
    requires 0.0 <= resumed < 0.5
    ensures var r := Tick(StartWorkout(StopWorkout(Tick(Adjust(StartWorkout(s), -DurationStep), 1.0))), resumed);
      && r.remaining == s.remaining - 1
      && r.section.exercises[r.index].duration == s.remaining - DurationStep
      && r.remaining > r.section.exercises[r.index].duration
      && r.progress < 0.0
  {
    RoundUnique(s.remaining as real - 1.0, s.remaining - 1);
    RoundUnique((s.remaining - 1) as real - resumed, s.remaining - 1);
  }

  /** The first posture exercise is such an exercise, with the resumed
      interval's first tick 200 milliseconds in at normal speed. */
  lemma PostureProgressCanGoNegative()
    ensures var r := Tick(StartWorkout(StopWorkout(Tick(Adjust(StartWorkout(LoadSection(NoSection, "posture").session), -DurationStep), 1.0))), 0.2);
      r.remaining == 29 && r.progress < 0.0
  {
    ProgressCanGoNegative(LoadSection(NoSection, "posture").session, 0.2);
  }
}

=== FILE: timing.dfy ===
/** Countdown arithmetic of the player: JavaScript rounding, the remaining-time
    rule evaluated by every tick of the running interval, and the progress-bar
    percentage drawn from it. */
module Timing {

  function Max(a: int, b: int): int
  {
    if a >= b then a else b
  }

  /** `Math.round`: the integer nearest to `x`, halves rounded up. */
  function Round(x: real): (n: int)
    ensures n as real - 0.5 <= x < n as real + 0.5
  {
    (x + 0.5).Floor
  }

  /** The nearest-integer characterisation fixes the result of `Round`. */
  lemma RoundUnique(x: real, n: int)
    requires n as real - 0.5 <= x < n as real + 0.5
    ensures Round(x) == n
  {
  }

  lemma RoundMonotone(x: real, y: real)
    requires x <= y
    ensures Round(x) <= Round(y)
  {
  }

  /** Whole seconds left on a countdown that began at `startRemaining` once
      `elapsed` (already scaled by the playback speed) seconds have passed:
      the rounded difference, never below zero. */
  function RemainingAfter(startRemaining: int, elapsed: real): (r: int)
    ensures r >= 0
    ensures r == 0 <==> startRemaining as real - elapsed < 0.5
    ensures r > 0 ==> r as real - 0.5 <= startRemaining as real - elapsed < r as real + 0.5
    ensures 0 <= startRemaining && 0.0 <= elapsed ==> r <= startRemaining
  {
    Max(0, Round(startRemaining as real - elapsed))
  }

  /** With nothing elapsed the countdown shows its starting value. */
  lemma RemainingAtStart(startRemaining: nat)
    ensures RemainingAfter(startRemaining, 0.0) == startRemaining
  {
    RoundUnique(startRemaining as real, startRemaining);
  }

  /** The more speed-scaled time has elapsed, the fewer seconds remain. */
  lemma RemainingAfterMonotone(startRemaining: int, e1: real, e2: real)
    requires e1 <= e2
    ensures RemainingAfter(startRemaining, e2) <= RemainingAfter(startRemaining, e1)
  {
    RoundMonotone(startRemaining as real - e2, startRemaining as real - e1);
  }

  /** Elapsed time is the whole wall time since the interval started, scaled
      by the speed in effect at each tick, so lowering the speed mid-countdown
      makes the next tick show more time: 10 wall seconds at double speed
      leave 10 of 30 seconds, and 0.2 seconds later at half speed 25 remain. */
  lemma SpeedChangeRaisesCount()
    ensures RemainingAfter(30, 10.0 * 2.0) == 10
    ensures RemainingAfter(30, 10.2 * 0.5) == 25
  {
    RoundUnique(30.0 - 20.0, 10);
    RoundUnique(30.0 - 5.1, 25);
  }

  /** Width of the progress bar, in percent, for a countdown of `total`
      seconds with `remaining` left; a zero-length countdown is full. */
  function Progress(total: int, remaining: int): (p: real)
    ensures total == 0 ==> p == 100.0
    ensures remaining == 0 ==> p == 100.0
    ensures total != 0 && remaining == total ==> p == 0.0
    ensures 0 < total && 0 <= remaining <= total ==> 0.0 <= p <= 100.0
  {
    if total == 0 then 100.0 else ((total - remaining) as real / total as real) * 100.0
  }

  /** Less time remaining never shows less progress. */
  lemma ProgressAntitone(total: int, r1: int, r2: int)
    requires 0 < total && r1 <= r2
    ensures Progress(total, r2) <= Progress(total, r1)
  {
    var t := total as real;
    assert (total - r2) as real <= (total - r1) as real;
    assert (total - r2) as real / t <= (total - r1) as real / t;
  }

  /** The bar grows at a constant rate: each second less remaining widens it
      by the same share, one `total`-th of the full width. */
  lemma ProgressLinear(total: int, r: int)
    requires 0 < total
    ensures Progress(total, r) - Progress(total, r + 1) == 100.0 / total as real
  {
  }
}
